=== FILE: README.md ===
# in_app_review: the Android review-session coordinator in Dafny

This project models `InAppReviewPlugin`, the Android side of the Flutter
`in_app_review` plugin. The plugin answers four method-channel calls:

- `isAvailable`
- `requestReview`
- `openStoreListing`
- `requestHuaweiReview`

It keeps four nullable fields:

- the application `context`;
- the foreground `activity`;
- the cached Play Core `ReviewInfo` token (`reviewInfo`);
- the pending Flutter `Result` (`result`).

It also translates the result code of AppGallery's comment activity
(request code 1001) into a reply.

## Structure

- `Wrappers`: `Option`, standing for a nullable reference.
- `Replies`: the channel replies `Success(value)`, `Error(code, message, details)` and `NotImplemented`. A `Result` object is a sink with an identity (`SinkId`). Every reply is logged as a `Delivery(sink, reply)`, so the model shows which caller got which answer.
- `Decimal`: `String.valueOf(int)`, the rendering used for the error code and the "Unexpected result code" text. A parser, `ParseInt`, is proved to invert it.
- `AppGalleryResult`: the total mapping from a result code to a reply.
- `Platform`:
  - the three environment facts `isAvailable` reads: Play Store installed, Play services available, and `SDK_INT` against `LOLLIPOP` = 21;
  - the store-listing URL, with its inverse.
- `Coordinator`: the plugin's state as a value (`PluginState`), with one pure function per Java operation giving the state after it. `Step` applies one lifecycle, channel, activity-result or task-completion event. `Run` applies a sequence of them.
  - Play Core `Task` completion listeners are kept as `tasks: seq<Listener>`. Each listener records the `Result` it captured. A `TaskComplete(index, succeeded, token)` event fires one of them.
  - Activities the plugin starts are logged in `launched`.
- `Plugin`: the class `InAppReviewPlugin`, whose fields are those of the Java class plus the three logs. Its methods update the fields in place. Each method is proved to produce `Step` (or the matching operation function) applied to the old state.
- `CoordinatorProperties`: lemmas over single events and over whole runs, plus the behavioural scenarios.

## Behaviour captured as written

- Both gates test the context before the activity. The replying gate sends "Android context not available" when the context is missing, even if the activity is missing too.
- `isAvailable` answers `false` and starts no fetch if context or activity is missing, or if any platform fact fails. Otherwise it starts exactly one fetch. A successful fetch stores its token and answers `true`. A failed fetch answers `false` and leaves the cache unchanged.
- `requestReview` launches at once when a token is cached. Otherwise it fetches a token and hands it to `launchReviewFlow` without storing it. A failed fetch is the error "In-App Review API unavailable". When the launched flow completes, the reply is `success(null)` whether or not the task succeeded.
- No event ever clears the cached token.
- Every method call overwrites the pending `Result`. Nothing ever clears it.
- `requestHuaweiReview` has no `break`, so it always ends with `notImplemented`. If starting the activity throws, `success(false)` comes first. This includes the `NullPointerException` raised when no activity is attached, which the `catch (Exception e)` catches.
- `onActivityResult` logs `result.toString()` before testing `result` for null (line 105). So a call of it before any method call throws: the outcome is `Crashed`, with no reply and no state change. Because `result` is never cleared afterwards, the null test never fails once a call has been made. A duplicate matching callback replies a second time. When it is called, the result of the AppGallery comment goes to whichever `Result` is pending at that moment, which can belong to a later call. (The class never registers itself as an activity-result listener; see "## Left out".)
- Token fetches are not deduplicated. Every `isAvailable` that passes its checks starts a new `requestReviewFlow` (line 195), and so does every `requestReview` that finds the cache empty (line 224), even while another fetch is still running.
- No operation clears `result`. A resolved request leaves its `Result` pending until the next method call replaces it.
- A second `requestHuaweiReview` while the comment activity of the first is still open is accepted. It overwrites `result` and starts the activity again (lines 62, 151-159).
- The two gate failures have separate messages, "Android context not available" and "Android activity not available", and the context is tested first (lines 304-317).
- The AppGallery failure replies use the error code as a decimal string, the message "error" and the fixed explanation texts of lines 114-139 as details.

## Model

| member | source | states |
|---|---|---|
| Decimal.NatToString | in_app_review/android/src/main/java/dev/britannio/in_app_review/InAppReviewPlugin.java:140 | the decimal rendering of a natural number is a non-empty string of digits with no leading zero |
| Decimal.IntToString | in_app_review/android/src/main/java/dev/britannio/in_app_review/InAppReviewPlugin.java:140 | `String.valueOf(int)`: non-empty, starts with '-' exactly for negative numbers, followed by digits with no leading zero (only 0 itself starts with '0') |
| Decimal.NatToStringRoundTrip | in_app_review/android/src/main/java/dev/britannio/in_app_review/InAppReviewPlugin.java:140 | reading the digits of n back gives n (induction on n) |
| Decimal.IntToStringRoundTrip | in_app_review/android/src/main/java/dev/britannio/in_app_review/InAppReviewPlugin.java:140 | parsing `String.valueOf(n)` gives back n, for negative numbers too |
| Decimal.IntToStringInjective | in_app_review/android/src/main/java/dev/britannio/in_app_review/InAppReviewPlugin.java:140 | different result codes are rendered as different code strings |
| AppGalleryResult.ResultCodeReply | in_app_review/android/src/main/java/dev/britannio/in_app_review/InAppReviewPlugin.java:111-140 | total mapping: a success (`true`) exactly for -1, 102 and 103; every other code is an error with message "error", a code string that parses back to the result code, and a text detail |
| AppGalleryResult.InternalErrorReply | in_app_review/android/src/main/java/dev/britannio/in_app_review/InAppReviewPlugin.java:116-118 | code 0 is error "0" / "error" / "Internal Error" |
| AppGalleryResult.NotReleasedReply | in_app_review/android/src/main/java/dev/britannio/in_app_review/InAppReviewPlugin.java:119-121 | code 101 is error "101" with the not-released-on-AppGallery text |
| AppGalleryResult.SignInInvalidReply | in_app_review/android/src/main/java/dev/britannio/in_app_review/InAppReviewPlugin.java:122-124 | code 104 is error "104" with the invalid HUAWEI ID sign-in text |
| AppGalleryResult.ConditionsNotMetReply | in_app_review/android/src/main/java/dev/britannio/in_app_review/InAppReviewPlugin.java:125-127 | code 105 is error "105" with the display-conditions text |
| AppGalleryResult.CommentingDisabledReply | in_app_review/android/src/main/java/dev/britannio/in_app_review/InAppReviewPlugin.java:128-130 | code 106 is error "106" with the commenting-disabled text |
| AppGalleryResult.ServiceUnsupportedReply | in_app_review/android/src/main/java/dev/britannio/in_app_review/InAppReviewPlugin.java:131-133 | code 107 is error "107" with the service-not-supported text |
| AppGalleryResult.UserCanceledReply | in_app_review/android/src/main/java/dev/britannio/in_app_review/InAppReviewPlugin.java:134-136 | code 108 is error "108" with the user-cancelled text |
| AppGalleryResult.UnexpectedCodeReply | in_app_review/android/src/main/java/dev/britannio/in_app_review/InAppReviewPlugin.java:137-140 | any other failing code is reported as "Unexpected result code: " followed by the code |
| AppGalleryResult.ErrorRepliesDistinguishCodes | in_app_review/android/src/main/java/dev/britannio/in_app_review/InAppReviewPlugin.java:140 | two failing codes that give the same reply are the same code |
| Platform.StoreListingUrlRoundTrip | in_app_review/android/src/main/java/dev/britannio/in_app_review/InAppReviewPlugin.java:280-284 | the package name can be read back from the store-details URL built from it |
| Platform.StoreListingUrlInjective | in_app_review/android/src/main/java/dev/britannio/in_app_review/InAppReviewPlugin.java:280-284 | different packages get different store-details URLs |
| Platform.PlayReviewSupported | in_app_review/android/src/main/java/dev/britannio/in_app_review/InAppReviewPlugin.java:169-175 | the Play review API is tried only with the Play Store installed, Play services available and `SDK_INT` at least 21 (`LOLLIPOP`); any one failing fact rules it out |
| Platform.StoreListingUrl | in_app_review/android/src/main/java/dev/britannio/in_app_review/InAppReviewPlugin.java:283 | the store URL is the Play details prefix followed by exactly the package name |
| Platform.PackageOfStoreListing | in_app_review/android/src/main/java/dev/britannio/in_app_review/InAppReviewPlugin.java:283 | the inverse of the URL construction: a package it reads back rebuilds the same URL, and it reads nothing from a URL without the prefix |
| AppGalleryResult.ErrorText | in_app_review/android/src/main/java/dev/britannio/in_app_review/InAppReviewPlugin.java:114-139 | the default text starts with "Unexpected result code: " and the rest parses back to the result code |
| Coordinator.ContextOrActivityMissing | in_app_review/android/src/main/java/dev/britannio/in_app_review/InAppReviewPlugin.java:291-302 | the silent gate fails exactly when the replying gate would send an error |
| Coordinator.GateError | in_app_review/android/src/main/java/dev/britannio/in_app_review/InAppReviewPlugin.java:304-317 | the replying gate sends error "error" with null details: the context message whenever the context is null, the activity message only when the context is present and the activity null, and nothing when both are present |
| Coordinator.Step | in_app_review/android/src/main/java/dev/britannio/in_app_review/InAppReviewPlugin.java:48-101 | a lifecycle callback touches only `context` or `activity`: attaching sets it, detaching nulls it, the other fields and all logs unchanged; a completion of a listener that is not registered changes nothing |
| Coordinator.LaunchReviewFlowOp | in_app_review/android/src/main/java/dev/britannio/in_app_review/InAppReviewPlugin.java:240-246 | if the gate fails, one gate error and nothing else; otherwise a flow listener with the current activity and the given token, and no reply; cache and pending result untouched |
| Coordinator.CacheReviewInfoOp | in_app_review/android/src/main/java/dev/britannio/in_app_review/InAppReviewPlugin.java:189-211 | if the gate fails, one gate error; otherwise exactly one cache-fetch listener on the caller's `Result` and no reply; cache not yet touched |
| Coordinator.IsAvailableOp | in_app_review/android/src/main/java/dev/britannio/in_app_review/InAppReviewPlugin.java:162-187 | when the context or the activity is missing, or any platform fact fails, the only change is one `success(false)` on the caller's `Result`; otherwise exactly one cache-fetch listener on that `Result` is added and nothing is replied; existing listeners, the cache and the pending result are kept |
| Coordinator.RequestReviewOp | in_app_review/android/src/main/java/dev/britannio/in_app_review/InAppReviewPlugin.java:213-238 | never changes the cache; if the gate fails, one gate error; with a cached token, a launch with that token and no fetch; otherwise one review-fetch listener |
| Coordinator.OpenStoreListingOp | in_app_review/android/src/main/java/dev/britannio/in_app_review/InAppReviewPlugin.java:275-289 | exactly one reply on the caller's `Result`; if the gate fails, that reply is the gate error (context first) and nothing else changes; past the gate, it opens exactly the package's store URL and replies `success(null)` |
| Coordinator.RequestHuaweiReviewOp | in_app_review/android/src/main/java/dev/britannio/in_app_review/InAppReviewPlugin.java:148-160 | if the launch throws or no activity is attached, it replies `success(false)`; otherwise it starts the comment activity with request code 1001 and does not reply |
| Coordinator.MethodCallOp | in_app_review/android/src/main/java/dev/britannio/in_app_review/InAppReviewPlugin.java:61-80 | the call's `Result` becomes the pending one; each handled name runs exactly its own operation ("isAvailable", "requestReview", "openStoreListing") on the updated state; "requestHuaweiReview" runs the AppGallery request and then `notImplemented`; context, activity and cache are unchanged; at most two replies are added, all on the call's `Result`; every name except the three handled ones ends with `notImplemented` |
| Coordinator.ActivityResultOp | in_app_review/android/src/main/java/dev/britannio/in_app_review/InAppReviewPlugin.java:103-146 | crashes exactly when no `Result` is pending; handled (returns true) exactly when one is pending and the request code is 1001, and then adds one mapped reply on the pending `Result`; otherwise nothing changes; never clears the pending `Result` |
| Coordinator.CompleteTaskOp | in_app_review/android/src/main/java/dev/britannio/in_app_review/InAppReviewPlugin.java:198-245 | the fired listener is removed; the cache changes only by a successful cache fetch, which stores its token; a cache fetch replies `success(true)` or `success(false)` by its outcome; a failed review fetch replies "In-App Review API unavailable"; a successful review fetch launches with the fetched token, or sends the gate error if context or activity is gone by then; a flow completion replies `success(null)`; every reply is on the listener's captured `Result` |
| Plugin.InAppReviewPlugin.constructor | in_app_review/android/src/main/java/dev/britannio/in_app_review/InAppReviewPlugin.java:37-44 | all fields null, nothing pending, nothing sent |
| Plugin.InAppReviewPlugin.Send | in_app_review/android/src/main/java/dev/britannio/in_app_review/InAppReviewPlugin.java:61-317 | the `Result` sink every reply site of the class uses (the `success`, `error` and `notImplemented` calls at lines 77, 112, 140, 158, 165, 179, 203, 207, 235, 245, 288, 308 and 312): one reply on a `Result` is appended to the log and nothing else changes |
| Plugin.InAppReviewPlugin.OnAttachedToEngine | in_app_review/android/src/main/java/dev/britannio/in_app_review/InAppReviewPlugin.java:48-53 | sets the context and nothing else |
| Plugin.InAppReviewPlugin.OnAttachedToActivity | in_app_review/android/src/main/java/dev/britannio/in_app_review/InAppReviewPlugin.java:55-58 | sets the activity and nothing else |
| Plugin.InAppReviewPlugin.OnDetachedFromActivityForConfigChanges | in_app_review/android/src/main/java/dev/britannio/in_app_review/InAppReviewPlugin.java:82-85 | delegates to detaching: the activity becomes null |
| Plugin.InAppReviewPlugin.OnReattachedToActivityForConfigChanges | in_app_review/android/src/main/java/dev/britannio/in_app_review/InAppReviewPlugin.java:87-90 | delegates to attaching: the new activity is installed |
| Plugin.InAppReviewPlugin.OnDetachedFromActivity | in_app_review/android/src/main/java/dev/britannio/in_app_review/InAppReviewPlugin.java:92-95 | the activity becomes null and nothing else changes |
| Plugin.InAppReviewPlugin.OnDetachedFromEngine | in_app_review/android/src/main/java/dev/britannio/in_app_review/InAppReviewPlugin.java:97-101 | the context becomes null; the cache and pending result survive |
| Plugin.InAppReviewPlugin.OnMethodCall | in_app_review/android/src/main/java/dev/britannio/in_app_review/InAppReviewPlugin.java:60-80 | the object ends in the state `MethodCallOp` describes, including the fall-through into `notImplemented` |
| Plugin.InAppReviewPlugin.OnActivityResult | in_app_review/android/src/main/java/dev/britannio/in_app_review/InAppReviewPlugin.java:103-146 | the returned outcome and new state are those of `ActivityResultOp` |
| Plugin.InAppReviewPlugin.RequestHuaweiReview | in_app_review/android/src/main/java/dev/britannio/in_app_review/InAppReviewPlugin.java:148-160 | the state `RequestHuaweiReviewOp` describes |
| Plugin.InAppReviewPlugin.IsAvailable | in_app_review/android/src/main/java/dev/britannio/in_app_review/InAppReviewPlugin.java:162-187 | the state `IsAvailableOp` describes |
| Plugin.InAppReviewPlugin.CacheReviewInfo | in_app_review/android/src/main/java/dev/britannio/in_app_review/InAppReviewPlugin.java:189-211 | the state `CacheReviewInfoOp` describes |
| Plugin.InAppReviewPlugin.RequestReview | in_app_review/android/src/main/java/dev/britannio/in_app_review/InAppReviewPlugin.java:213-238 | the state `RequestReviewOp` describes |
| Plugin.InAppReviewPlugin.LaunchReviewFlow | in_app_review/android/src/main/java/dev/britannio/in_app_review/InAppReviewPlugin.java:240-246 | the state `LaunchReviewFlowOp` describes |
| Plugin.InAppReviewPlugin.CompleteTask | in_app_review/android/src/main/java/dev/britannio/in_app_review/InAppReviewPlugin.java:198-245 | firing a registered listener leaves the state `CompleteTaskOp` describes |
| Plugin.InAppReviewPlugin.OpenStoreListing | in_app_review/android/src/main/java/dev/britannio/in_app_review/InAppReviewPlugin.java:275-289 | the state `OpenStoreListingOp` describes |
| Plugin.InAppReviewPlugin.NoContextOrActivity | in_app_review/android/src/main/java/dev/britannio/in_app_review/InAppReviewPlugin.java:291-302 | reports a gap exactly when the context or the activity is null, and changes nothing |
| Plugin.InAppReviewPlugin.NoContextOrActivityReply | in_app_review/android/src/main/java/dev/britannio/in_app_review/InAppReviewPlugin.java:304-317 | reports a gap exactly when the context or the activity is null; sends the context error first, else the activity error; otherwise changes nothing |
| CoordinatorProperties.StepPendingResult | in_app_review/android/src/main/java/dev/britannio/in_app_review/InAppReviewPlugin.java:60-62 | a method call, and only a method call, changes the pending `Result`, and it sets it to its own |
| CoordinatorProperties.StepCacheChange | in_app_review/android/src/main/java/dev/britannio/in_app_review/InAppReviewPlugin.java:198-203 | one event changes the cache only as a successful cache fetch storing its token, and never empties it |
| CoordinatorProperties.StepCacheFetchOrigin | in_app_review/android/src/main/java/dev/britannio/in_app_review/InAppReviewPlugin.java:185-198 | a new cache-fetch listener appears only through an "isAvailable" call, on that call's `Result` |
| CoordinatorProperties.StepRepliesGrow | in_app_review/android/src/main/java/dev/britannio/in_app_review/InAppReviewPlugin.java:61-80 | no event retracts a reply; one event adds at most two |
| CoordinatorProperties.PendingResultIsLatestCall | in_app_review/android/src/main/java/dev/britannio/in_app_review/InAppReviewPlugin.java:60-62 | after any run, the pending `Result` is that of the latest method call, or the initial one if the run has no call |
| CoordinatorProperties.PendingResultNeverCleared | in_app_review/android/src/main/java/dev/britannio/in_app_review/InAppReviewPlugin.java:103-146 | once a `Result` is pending, one stays pending through any run |
| CoordinatorProperties.CachedTokenNeverCleared | in_app_review/android/src/main/java/dev/britannio/in_app_review/InAppReviewPlugin.java:198-203 | once a token is cached, some token stays cached through any run |
| CoordinatorProperties.CachedTokenComesFromCacheFetch | in_app_review/android/src/main/java/dev/britannio/in_app_review/InAppReviewPlugin.java:198-203 | a token newly cached at the end of a run was stored by a successful cache fetch at some step of the run |
| CoordinatorProperties.CacheFetchListenerOrigin | in_app_review/android/src/main/java/dev/britannio/in_app_review/InAppReviewPlugin.java:181-198 | every cache-fetch listener waiting after a run, and not before it, was registered by an "isAvailable" call in the run on the listener's own `Result` |
| CoordinatorProperties.CachedTokenComesFromAvailabilityCall | in_app_review/android/src/main/java/dev/britannio/in_app_review/InAppReviewPlugin.java:181-203 | from a fresh plugin, a cached token was stored by a successful cache fetch whose listener an earlier "isAvailable" call registered on its `Result` |
| CoordinatorProperties.RepliesOnlyAppended | in_app_review/android/src/main/java/dev/britannio/in_app_review/InAppReviewPlugin.java:61-80 | the reply log at the end of any run extends the log at its start |
| CoordinatorProperties.WarmCacheSkipsFetch | in_app_review/android/src/main/java/dev/britannio/in_app_review/InAppReviewPlugin.java:181-222 | after a successful availability check, the next review request launches with the cached token and starts no fetch |
| CoordinatorProperties.FailedAvailabilityFetchKeepsToken | in_app_review/android/src/main/java/dev/britannio/in_app_review/InAppReviewPlugin.java:204-208 | a failed cache fetch answers `false` and leaves the cached token as it was |
| CoordinatorProperties.ReviewFetchLaunches | in_app_review/android/src/main/java/dev/britannio/in_app_review/InAppReviewPlugin.java:227-232 | with context and activity present, a token fetched for a review is handed to the launch (a flow listener with that token) and not stored in the cache, and nothing is replied yet |
| CoordinatorProperties.ReviewFetchFailure | in_app_review/android/src/main/java/dev/britannio/in_app_review/InAppReviewPlugin.java:233-236 | a failed review fetch replies "In-App Review API unavailable" on its `Result` whatever the context and activity, and changes neither cache nor launches |
| CoordinatorProperties.AvailabilityWithoutSurface | in_app_review/android/src/main/java/dev/britannio/in_app_review/InAppReviewPlugin.java:164-167 | "isAvailable" without a context or an activity answers `success(false)`, starts no fetch and keeps every pending listener, the cache and the launches |
| CoordinatorProperties.ReviewFlowAlwaysSucceeds | in_app_review/android/src/main/java/dev/britannio/in_app_review/InAppReviewPlugin.java:245 | the launched flow's completion is answered `success(null)` whatever the task's outcome |
| CoordinatorProperties.GateChecksContextFirst | in_app_review/android/src/main/java/dev/britannio/in_app_review/InAppReviewPlugin.java:304-317 | a review request without context or activity starts nothing and replies with the context error, or with the activity error when only the activity is missing |
| CoordinatorProperties.UnsupportedPlatformNotAvailable | in_app_review/android/src/main/java/dev/britannio/in_app_review/InAppReviewPlugin.java:169-179 | on a platform without Play Store, Play services or Android 5, "isAvailable" answers `false` and fetches nothing |
| CoordinatorProperties.StoreListingOpensPackagePage | in_app_review/android/src/main/java/dev/britannio/in_app_review/InAppReviewPlugin.java:280-288 | "openStoreListing" opens exactly `https://play.google.com/store/apps/details?id=` + package and replies `success(null)` |
| CoordinatorProperties.HuaweiLaunchFailureRepliesTwice | in_app_review/android/src/main/java/dev/britannio/in_app_review/InAppReviewPlugin.java:74-78 | a failing AppGallery launch answers the same `Result` twice: `success(false)`, then `notImplemented` |
| CoordinatorProperties.HuaweiLaunchAnswersNotImplemented | in_app_review/android/src/main/java/dev/britannio/in_app_review/InAppReviewPlugin.java:148-160 | a successful AppGallery launch starts the request-1001 activity and answers only `notImplemented` |
| CoordinatorProperties.UnknownMethodNotImplemented | in_app_review/android/src/main/java/dev/britannio/in_app_review/InAppReviewPlugin.java:76-78 | an unknown method name only becomes pending and is answered `notImplemented` |
| CoordinatorProperties.HuaweiCancelledComment | in_app_review/android/src/main/java/dev/britannio/in_app_review/InAppReviewPlugin.java:134-142 | result code 108 is answered on the pending `Result` as error "108" / "error" / "The user canceled the comment.", and the callback returns true |
| CoordinatorProperties.DuplicateActivityResultRepliesTwice | in_app_review/android/src/main/java/dev/britannio/in_app_review/InAppReviewPlugin.java:108-142 | a second matching callback is handled again and adds the same reply a second time |
| CoordinatorProperties.ActivityResultBeforeAnyCallCrashes | in_app_review/android/src/main/java/dev/britannio/in_app_review/InAppReviewPlugin.java:105 | on a fresh plugin every activity result throws and nothing changes |
| CoordinatorProperties.LateActivityResultAnswersLatestCall | in_app_review/android/src/main/java/dev/britannio/in_app_review/InAppReviewPlugin.java:62-112 | whatever the surface, the platform and the outcome of either launch, an AppGallery result that arrives after a later call is delivered on that later call's `Result` |
| CoordinatorProperties.ConfigChangeRestoresActivity | in_app_review/android/src/main/java/dev/britannio/in_app_review/InAppReviewPlugin.java:82-95 | detaching for a configuration change and reattaching installs the new activity and changes nothing else; detaching clears only the activity |

## Left out

- Logging (`Log.i`, `Log.w`, `Log.e`) is not modelled. It has no effect on state or replies, except the dereference of `result` at line 105, which is modelled as `Crashed`.
- `MethodChannel` creation, `setMethodCallHandler` and its removal in `onDetachedFromEngine` are left out as plumbing. So is the `NullPointerException` that `onDetachedFromEngine` would raise if the engine had never attached.
- `isPlayStoreInstalled`, `isPlayServicesAvailable` and `Build.VERSION.SDK_INT` call into Android and Google Play services. They are inputs here: the `Environment` passed to a method call.
- `ReviewManager`, `Task` and `ReviewInfo` internals are foreign. The token is opaque. A listener fires when the caller of `CompleteTask` or a `TaskComplete` event says so, with the task's success flag and result as inputs. The order in which Play Core completes tasks is therefore left open, not modelled.
- Intent construction, `startActivity` and `startActivityForResult` are foreign. The model keeps only what is started (`launched`) and, for the AppGallery launch, whether it throws. An exception from `startActivity` in `openStoreListing` (for example, no browser installed) is not modelled. The source does not catch it.
- The `ActivityResult` event and the `OnActivityResult` method stand for a direct call of `onActivityResult`. The class declares `PluginRegistry.ActivityResultListener` (line 32), but neither `onAttachedToActivity` (lines 55-58) nor `onReattachedToActivityForConfigChanges` (lines 87-90) calls `binding.addActivityResultListener(this)`, and nothing else registers it. Read as written, the engine has no route to `onActivityResult`, so the AppGallery result would never be delivered. The model does not capture this missing registration. It lets the callback arrive at any time, so that its handling (lines 103-146) can be stated.
- The `Intent data` argument of `onActivityResult` is not read by the source and is not modelled.
- Flutter rejects a second reply on the same `Result`. The model only logs every reply the plugin makes, so the double replies of `requestHuaweiReview` and of a duplicate activity result are visible, but the platform's reaction to them is not modelled.
- `Coordinator.Step`: a completion event for a listener index that is not registered changes nothing. No such event arises from the platform. The class method `CompleteTask` instead requires the index to be registered.

=== FILE: app_gallery_result.dfy ===
/**
 * The translation of an AppGallery activity result into a channel reply, as
 * `onActivityResult` performs it for request code 1001.
 */
module AppGalleryResult {

  import opened Wrappers
  import opened Replies
  import Decimal

  /** The request code `requestHuaweiReview` starts the comment activity with. */
  const REQUEST_CODE: int := 1001

  /** -1 is `RESULT_OK`; 102 and 103 are AppGallery's "comment submitted" codes. */
  predicate IsSuccessCode(resultCode: int) {
    resultCode == -1 || resultCode == 102 || resultCode == 103
  }

  /** The result codes that have a fixed explanation of their own. */
  predicate IsDocumentedErrorCode(resultCode: int) {
    resultCode == 0 || resultCode == 101 || (104 <= resultCode <= 108)
  }

  /** The default branch's text, before the decimal result code. */
  const UNEXPECTED_PREFIX: string := "Unexpected result code: "

  /** The `details` text sent with the error reply for a failing result code. */
  function ErrorText(resultCode: int): (text: string)
    ensures !IsDocumentedErrorCode(resultCode) ==>
              UNEXPECTED_PREFIX <= text && Decimal.ParseInt(text[|UNEXPECTED_PREFIX|..]) == Some(resultCode)
  {
    Decimal.IntToStringRoundTrip(resultCode);
    if resultCode == 0 then "Internal Error"
    else if resultCode == 101 then "The app has not been released on AppGallery"
    else if resultCode == 104 then "The HUAWEI ID sign-in status is invalid"
    else if resultCode == 105 then "The user does not meet the conditions for displaying the comment pop-up"
    else if resultCode == 106 then "The commenting function is disabled"
    else if resultCode == 107 then "The in-app commenting service is not supported"
    else if resultCode == 108 then "The user canceled the comment."
    else UNEXPECTED_PREFIX + Decimal.IntToString(resultCode)
  }

  /**
   * The reply for a result code. Total: every code either succeeds with `true`
   * or fails with message "error", a code string that reads back as the result
   * code, and a textual explanation.
   */
  function ResultCodeReply(resultCode: int): (r: Reply)
    ensures r.Success? <==> IsSuccessCode(resultCode)
    ensures r.Success? ==> r.value == BoolValue(true)
    ensures r.Error? ==> r.message == "error" && r.details.Text?
    ensures r.Error? ==> Decimal.ParseInt(r.code) == Some(resultCode)
    ensures !r.NotImplemented?
  {
    if IsSuccessCode(resultCode) then
      Success(BoolValue(true))
    else
      Decimal.IntToStringRoundTrip(resultCode);
      Error(Decimal.IntToString(resultCode), "error", Text(ErrorText(resultCode)))
  }

  /** Result code 0: an internal error. */
  lemma InternalErrorReply()
    ensures ResultCodeReply(0) == Error("0", "error", Text("Internal Error"))
  {
  }

  /** Result code 101: the app is not on AppGallery. */
  lemma NotReleasedReply()
    ensures ResultCodeReply(101) == Error("101", "error", Text("The app has not been released on AppGallery"))
  {
  }

  /** Result code 104: the HUAWEI ID sign-in is invalid. */
  lemma SignInInvalidReply()
    ensures ResultCodeReply(104) == Error("104", "error", Text("The HUAWEI ID sign-in status is invalid"))
  {
  }

  /** Result code 105: the user may not be shown the pop-up. */
  lemma ConditionsNotMetReply()
    ensures ResultCodeReply(105) == Error("105", "error", Text("The user does not meet the conditions for displaying the comment pop-up"))
  {
  }

  /** Result code 106: commenting is disabled. */
  lemma CommentingDisabledReply()
    ensures ResultCodeReply(106) == Error("106", "error", Text("The commenting function is disabled"))
  {
  }

  /** Result code 107: in-app commenting is not supported. */
  lemma ServiceUnsupportedReply()
    ensures ResultCodeReply(107) == Error("107", "error", Text("The in-app commenting service is not supported"))
  {
  }

  /** Result code 108: the user cancelled. */
  lemma UserCanceledReply()
    ensures ResultCodeReply(108) == Error("108", "error", Text("The user canceled the comment."))
  {
  }

  /** Any code that is neither a success nor documented is reported as unexpected, with its value. */
  lemma UnexpectedCodeReply(resultCode: int)
    requires !IsSuccessCode(resultCode) && !IsDocumentedErrorCode(resultCode)
    ensures ResultCodeReply(resultCode)
         == Error(Decimal.IntToString(resultCode), "error",
                  Text("Unexpected result code: " + Decimal.IntToString(resultCode)))
  {
  }

  /** Two different failing codes never produce the same reply. */
  lemma ErrorRepliesDistinguishCodes(a: int, b: int)
    requires !IsSuccessCode(a) && !IsSuccessCode(b)
    requires ResultCodeReply(a) == ResultCodeReply(b)
    ensures a == b
  {
  }
}

=== FILE: coordinator.dfy ===
/**
 * The review-session coordinator of `InAppReviewPlugin` as values: the
 * plugin's nullable fields, the completion listeners it has registered with
 * Play Core tasks, the replies it has made and the activities it has started,
 * with one function per operation of the plugin giving the state after it.
 */
module Coordinator {

  import opened Wrappers
  import opened Replies
  import opened Platform
  import AppGalleryResult

  /** The application context; only its package name is ever read. */
  datatype AppContext = AppContext(packageName: string)

  /** The foreground activity, opaque. */
  datatype Activity = Activity(id: nat)

  /** A Play Core `ReviewInfo`, opaque. */
  datatype Token = Token(id: nat)

  /**
   * A completion listener waiting on a Play Core task, with what it captured:
   * the `Result` it will answer and, for a launched review flow, the activity
   * and token it was launched with.
   */
  datatype Listener =
    | CacheFetch(sink: SinkId)                                  // cacheReviewInfo's requestReviewFlow task
    | ReviewFetch(sink: SinkId)                                 // requestReview's requestReviewFlow task
    | ReviewFlow(sink: SinkId, activity: Activity, token: Token) // launchReviewFlow's task

  /** An activity the plugin started. */
  datatype Launch =
    | ViewUrl(url: string)             // startActivity(ACTION_VIEW, url)
    | GuideComment(requestCode: int)   // startActivityForResult of AppGallery's comment intent

  datatype PluginState = PluginState(
    context: Option<AppContext>,
    activity: Option<Activity>,
    reviewInfo: Option<Token>,
    result: Option<SinkId>,
    tasks: seq<Listener>,
    replies: seq<Delivery>,
    launched: seq<Launch>)

  /** How `onActivityResult` ends: by throwing, or by returning whether it handled the result. */
  datatype CallbackOutcome = Crashed | Returned(handled: bool)

  /** Everything the plugin receives from the Flutter engine and from Play Core. */
  datatype Event =
    | AttachedToEngine(appContext: AppContext)
    | AttachedToActivity(attached: Activity)
    | DetachedFromActivityForConfigChanges
    | ReattachedToActivityForConfigChanges(reattached: Activity)
    | DetachedFromActivity
    | DetachedFromEngine
    | MethodCall(name: string, sink: SinkId, env: Environment, launchThrows: bool)
    | ActivityResult(requestCode: int, resultCode: int)
    | TaskComplete(index: nat, succeeded: bool, token: Token)

  /** A freshly constructed plugin: every field null, nothing pending, nothing sent. */
  function Initial(): (s0: PluginState) {
    PluginState(None, None, None, None, [], [], [])
  }

  /** `sink.success/error/notImplemented`: one more reply, on `sink`. */
  function Send(s: PluginState, sink: SinkId, r: Reply): (t: PluginState) {
    s.(replies := s.replies + [Delivery(sink, r)])
  }

  /** `addOnCompleteListener`: one more listener waiting on a task. */
  function Await(s: PluginState, l: Listener): (t: PluginState) {
    s.(tasks := s.tasks + [l])
  }

  /** The test of the silent `noContextOrActivity()`; it fails exactly when the replying one sends an error. */
  predicate ContextOrActivityMissing(s: PluginState): (missing: bool)
    ensures missing <==> GateError(s).Some?
  {
    s.context.None? || s.activity.None?
  }

  /** The error the replying `noContextOrActivity(result)` sends, context first. */
  function GateError(s: PluginState): (e: Option<Reply>)
    ensures e.Some? ==> e.value.Error? && e.value.code == "error" && e.value.details == NullValue
    ensures s.context.None? ==> e == Some(Error("error", "Android context not available", NullValue))
    ensures s.context.Some? && s.activity.None? ==> e == Some(Error("error", "Android activity not available", NullValue))
    ensures s.context.Some? && s.activity.Some? ==> e.None?
  {
    if s.context.None? then Some(Error("error", "Android context not available", NullValue))
    else if s.activity.None? then Some(Error("error", "Android activity not available", NullValue))
    else None
  }

  /** `launchReviewFlow`: gate, then register a listener on the launched flow. */
  function LaunchReviewFlowOp(s: PluginState, sink: SinkId, token: Token): (t: PluginState)
    ensures t.context == s.context && t.activity == s.activity
    ensures t.reviewInfo == s.reviewInfo && t.result == s.result && t.launched == s.launched
    ensures ContextOrActivityMissing(s) ==> t == Send(s, sink, GateError(s).value)
    ensures !ContextOrActivityMissing(s) ==>
              t.replies == s.replies && t.tasks == s.tasks + [ReviewFlow(sink, s.activity.value, token)]
  {
    match GateError(s)
    case Some(e) => Send(s, sink, e)
    case None => Await(s, ReviewFlow(sink, s.activity.value, token))
  }

  /** `cacheReviewInfo`: gate, then fetch a token for the cache. */
  function CacheReviewInfoOp(s: PluginState, sink: SinkId): (t: PluginState)
    ensures t.context == s.context && t.activity == s.activity
    ensures t.reviewInfo == s.reviewInfo && t.result == s.result && t.launched == s.launched
    ensures ContextOrActivityMissing(s) ==> t == Send(s, sink, GateError(s).value)
    ensures !ContextOrActivityMissing(s) ==> t == Await(s, CacheFetch(sink))
  {
    match GateError(s)
    case Some(e) => Send(s, sink, e)
    case None => Await(s, CacheFetch(sink))
  }

  /**
   * `isAvailable`: answers `false` without fetching unless context, activity
   * and the three platform facts are all present; otherwise starts exactly one
   * fetch and answers nothing yet.
   */
  function IsAvailableOp(s: PluginState, sink: SinkId, env: Environment): (t: PluginState)
    ensures t.reviewInfo == s.reviewInfo && t.result == s.result && t.launched == s.launched
    ensures t.context == s.context && t.activity == s.activity
    ensures ContextOrActivityMissing(s) || !PlayReviewSupported(env) ==> t == Send(s, sink, Success(BoolValue(false)))
    ensures !ContextOrActivityMissing(s) && PlayReviewSupported(env) ==> t == Await(s, CacheFetch(sink))
  {
    if ContextOrActivityMissing(s) then Send(s, sink, Success(BoolValue(false)))
    else if !PlayReviewSupported(env) then Send(s, sink, Success(BoolValue(false)))
    else CacheReviewInfoOp(s, sink)
  }

  /**
   * `requestReview`: after the gate, launches at once with a cached token, and
   * otherwise fetches one; it never stores a token.
   */
  function RequestReviewOp(s: PluginState, sink: SinkId): (t: PluginState)
    ensures t.reviewInfo == s.reviewInfo && t.result == s.result && t.launched == s.launched
    ensures t.context == s.context && t.activity == s.activity
    ensures ContextOrActivityMissing(s) ==> t == Send(s, sink, GateError(s).value)
    ensures !ContextOrActivityMissing(s) && s.reviewInfo.Some? ==>
              t == Await(s, ReviewFlow(sink, s.activity.value, s.reviewInfo.value))
    ensures !ContextOrActivityMissing(s) && s.reviewInfo.None? ==> t == Await(s, ReviewFetch(sink))
  {
    match GateError(s)
    case Some(e) => Send(s, sink, e)
    case None =>
      if s.reviewInfo.Some? then LaunchReviewFlowOp(s, sink, s.reviewInfo.value)
      else Await(s, ReviewFetch(sink))
  }

  /** `openStoreListing`: after the gate, opens the package's store page and answers `null`. */
  function OpenStoreListingOp(s: PluginState, sink: SinkId): (t: PluginState)
    ensures t.reviewInfo == s.reviewInfo && t.result == s.result && t.tasks == s.tasks
    ensures t.context == s.context && t.activity == s.activity
    ensures |t.replies| == |s.replies| + 1 && t.replies[..|s.replies|] == s.replies
    ensures t.replies[|s.replies|].sink == sink
    ensures ContextOrActivityMissing(s) ==> t == Send(s, sink, GateError(s).value)
    ensures !ContextOrActivityMissing(s) ==>
              t.launched == s.launched + [ViewUrl(StoreListingUrl(s.context.value.packageName))]
              && t.replies[|s.replies|].reply == Success(NullValue)
  {
    match GateError(s)
    case Some(e) => Send(s, sink, e)
    case None =>
      var shown := s.(launched := s.launched + [ViewUrl(StoreListingUrl(s.context.value.packageName))]);
      Send(shown, sink, Success(NullValue))
  }

  /**
   * `requestHuaweiReview`: starts AppGallery's comment activity for request
   * code 1001; a launch that throws, including the null dereference when no
   * activity is attached, is caught and answered `false`.
   */
  function RequestHuaweiReviewOp(s: PluginState, sink: SinkId, launchThrows: bool): (t: PluginState)
    ensures t.reviewInfo == s.reviewInfo && t.result == s.result && t.tasks == s.tasks
    ensures t.context == s.context && t.activity == s.activity
    ensures launchThrows || s.activity.None? ==>
              t == Send(s, sink, Success(BoolValue(false)))
    ensures !(launchThrows || s.activity.None?) ==>
              t.replies == s.replies && t.launched == s.launched + [GuideComment(AppGalleryResult.REQUEST_CODE)]
  {
    if launchThrows || s.activity.None? then Send(s, sink, Success(BoolValue(false)))
    else s.(launched := s.launched + [GuideComment(AppGalleryResult.REQUEST_CODE)])
  }

  /** The method names `onMethodCall` handles without falling into its default branch. */
  predicate IsHandledMethod(name: string) {
    name == "isAvailable" || name == "requestReview" || name == "openStoreListing"
  }

  /**
   * `onMethodCall`: makes the call's `Result` the pending one, then dispatches.
   * "requestHuaweiReview" has no `break` and continues into the default
   * branch, so it always ends with `notImplemented`.
   */
  function MethodCallOp(s: PluginState, name: string, sink: SinkId, env: Environment, launchThrows: bool): (t: PluginState)
    ensures t.result == Some(sink)
    ensures t.context == s.context && t.activity == s.activity && t.reviewInfo == s.reviewInfo
    ensures |s.replies| <= |t.replies| <= |s.replies| + 2 && t.replies[..|s.replies|] == s.replies
    ensures forall j :: |s.replies| <= j < |t.replies| ==> t.replies[j].sink == sink
    ensures !IsHandledMethod(name) ==>
              |t.replies| > |s.replies| && t.replies[|t.replies| - 1] == Delivery(sink, NotImplemented)
    ensures IsHandledMethod(name) ==> forall j :: |s.replies| <= j < |t.replies| ==> !t.replies[j].reply.NotImplemented?
    ensures name == "isAvailable" ==> t == IsAvailableOp(s.(result := Some(sink)), sink, env)
    ensures name == "requestReview" ==> t == RequestReviewOp(s.(result := Some(sink)), sink)
    ensures name == "openStoreListing" ==> t == OpenStoreListingOp(s.(result := Some(sink)), sink)
    ensures name == "requestHuaweiReview" ==>
              t == Send(RequestHuaweiReviewOp(s.(result := Some(sink)), sink, launchThrows), sink, NotImplemented)
  {
    var pending := s.(result := Some(sink));
    if name == "isAvailable" then IsAvailableOp(pending, sink, env)
    else if name == "requestReview" then RequestReviewOp(pending, sink)
    else if name == "openStoreListing" then OpenStoreListingOp(pending, sink)
    else
      var before := if name == "requestHuaweiReview" then RequestHuaweiReviewOp(pending, sink, launchThrows) else pending;
      Send(before, sink, NotImplemented)
  }

  /**
   * `onActivityResult`: logging `result` dereferences it before the null test,
   * so with no call ever made it throws. Otherwise request code 1001 is handled
   * by one reply on the pending `Result`, which stays pending; any other code
   * is left to other listeners.
   */
  function ActivityResultOp(s: PluginState, requestCode: int, resultCode: int): (r: (PluginState, CallbackOutcome))
    ensures r.0.result == s.result
    ensures r.1 == Crashed <==> s.result.None?
    ensures r.1 == Returned(true) <==> s.result.Some? && requestCode == AppGalleryResult.REQUEST_CODE
    ensures r.1 != Returned(true) ==> r.0 == s
    ensures r.1 == Returned(true) ==>
              r.0 == Send(s, s.result.value, AppGalleryResult.ResultCodeReply(resultCode))
  {
    if s.result.None? then (s, Crashed)
    else if requestCode == AppGalleryResult.REQUEST_CODE then
      (Send(s, s.result.value, AppGalleryResult.ResultCodeReply(resultCode)), Returned(true))
    else (s, Returned(false))
  }

  /** The listeners still waiting once the one at `i` has fired. */
  function WithoutTask(s: PluginState, i: nat): (t: PluginState)
    requires i < |s.tasks|
  {
    s.(tasks := s.tasks[..i] + s.tasks[i + 1..])
  }

  /**
   * The listener at `i` fires. Only a successful cache fetch stores its token;
   * a successful review fetch hands its token to `launchReviewFlow`.
   */
  function CompleteTaskOp(s: PluginState, i: nat, succeeded: bool, token: Token): (t: PluginState)
    requires i < |s.tasks|
    ensures t.context == s.context && t.activity == s.activity && t.result == s.result
    ensures t.launched == s.launched
    ensures t.reviewInfo == (if s.tasks[i].CacheFetch? && succeeded then Some(token) else s.reviewInfo)
    ensures s.tasks[..i] + s.tasks[i + 1..] <= t.tasks
    ensures s.tasks[i].ReviewFetch? && succeeded && !ContextOrActivityMissing(s) ==>
              t.replies == s.replies && t.tasks == s.tasks[..i] + s.tasks[i + 1..] + [ReviewFlow(s.tasks[i].sink, s.activity.value, token)]
    ensures !(s.tasks[i].ReviewFetch? && succeeded && !ContextOrActivityMissing(s)) ==>
              |t.tasks| == |s.tasks| - 1 && |t.replies| == |s.replies| + 1
              && t.replies[..|s.replies|] == s.replies && t.replies[|s.replies|].sink == s.tasks[i].sink
    ensures s.tasks[i].CacheFetch? ==>
              t.replies == s.replies + [Delivery(s.tasks[i].sink, Success(BoolValue(succeeded)))]
    ensures s.tasks[i].ReviewFetch? && !succeeded ==>
              t.replies == s.replies + [Delivery(s.tasks[i].sink, Error("error", "In-App Review API unavailable", NullValue))]
    ensures s.tasks[i].ReviewFetch? && succeeded && ContextOrActivityMissing(s) ==>
              t.replies == s.replies + [Delivery(s.tasks[i].sink, GateError(s).value)]
    ensures s.tasks[i].ReviewFlow? ==> t.replies == s.replies + [Delivery(s.tasks[i].sink, Success(NullValue))]
  {
    var rest := WithoutTask(s, i);
    match s.tasks[i]
    case CacheFetch(k) =>
      if succeeded then Send(rest.(reviewInfo := Some(token)), k, Success(BoolValue(true)))
      else Send(rest, k, Success(BoolValue(false)))
    case ReviewFetch(k) =>
      if succeeded then LaunchReviewFlowOp(rest, k, token)
      else Send(rest, k, Error("error", "In-App Review API unavailable", NullValue))
    case ReviewFlow(k, _, _) =>
      Send(rest, k, Success(NullValue))
  }

  /** The state after one event; a completion for a listener that is not registered changes nothing. */
  function Step(s: PluginState, e: Event): (t: PluginState)
    ensures !(e.MethodCall? || e.ActivityResult? || e.TaskComplete?) ==>
              t.reviewInfo == s.reviewInfo && t.result == s.result && t.tasks == s.tasks
              && t.replies == s.replies && t.launched == s.launched
    ensures e.AttachedToEngine? ==> t.context == Some(e.appContext) && t.activity == s.activity
    ensures e.DetachedFromEngine? ==> t.context.None? && t.activity == s.activity
    ensures e.AttachedToActivity? ==> t.activity == Some(e.attached) && t.context == s.context
    ensures e.ReattachedToActivityForConfigChanges? ==> t.activity == Some(e.reattached) && t.context == s.context
    ensures e.DetachedFromActivity? || e.DetachedFromActivityForConfigChanges? ==>
              t.activity.None? && t.context == s.context
    ensures e.TaskComplete? && e.index >= |s.tasks| ==> t == s
  {
    match e
    case AttachedToEngine(c) => s.(context := Some(c))
    case AttachedToActivity(a) => s.(activity := Some(a))
    case DetachedFromActivityForConfigChanges => s.(activity := None)
    case ReattachedToActivityForConfigChanges(a) => s.(activity := Some(a))
    case DetachedFromActivity => s.(activity := None)
    case DetachedFromEngine => s.(context := None)
    case MethodCall(name, k, env, throws) => MethodCallOp(s, name, k, env, throws)
    case ActivityResult(rq, rc) => ActivityResultOp(s, rq, rc).0
    case TaskComplete(i, ok, tok) => if i < |s.tasks| then CompleteTaskOp(s, i, ok, tok) else s
  }

  /** The state after a sequence of events, the last one applied last. */
  function Run(s: PluginState, es: seq<Event>): (t: PluginState)
    decreases |es|
  {
    if es == [] then s else Step(Run(s, es[..|es| - 1]), es[|es| - 1])
  }
}

=== FILE: coordinator_properties.dfy ===
/**
 * What the coordinator guarantees, and fails to guarantee, over single
 * events and over whole sequences of events.
 */
module CoordinatorProperties {

  import opened Wrappers
  import opened Replies
  import opened Platform
  import opened Coordinator
  import AppGalleryResult

  /** Event `e`, applied to `s`, is a successful completion of a cache fetch that yields `tok`. */
  predicate FillsCache(s: PluginState, e: Event, tok: Token) {
    e.TaskComplete? && e.succeeded && e.token == tok
    && e.index < |s.tasks| && s.tasks[e.index].CacheFetch?
  }

  /** Event `e` is an "isAvailable" call on `Result` `k`, the only call that registers a cache fetch. */
  predicate AvailabilityCallOn(e: Event, k: SinkId) {
    e.MethodCall? && e.name == "isAvailable" && e.sink == k
  }

  /** The `Result` of the latest method call in `es`, or `initial` if there is none. */
  function LatestSink(initial: Option<SinkId>, es: seq<Event>): (k: Option<SinkId>)
    decreases |es|
  {
    if es == [] then initial
    else if es[|es| - 1].MethodCall? then Some(es[|es| - 1].sink)
    else LatestSink(initial, es[..|es| - 1])
  }

  // ----- one event -----

  /** Only a method call moves the pending `Result`, and it always does. */
  lemma StepPendingResult(s: PluginState, e: Event)
    ensures Step(s, e).result == if e.MethodCall? then Some(e.sink) else s.result
  {
  }

  /** The cache changes only when a cache fetch completes successfully, and then holds its token. */
  lemma StepCacheChange(s: PluginState, e: Event)
    ensures Step(s, e).reviewInfo != s.reviewInfo ==>
              Step(s, e).reviewInfo.Some? && FillsCache(s, e, Step(s, e).reviewInfo.value)
    ensures s.reviewInfo.Some? ==> Step(s, e).reviewInfo.Some?
  {
  }

  /** A new cache-fetch listener appears only through an "isAvailable" call, on that call's `Result`. */
  lemma StepCacheFetchOrigin(s: PluginState, e: Event, l: Listener)
    requires l in Step(s, e).tasks && l !in s.tasks && l.CacheFetch?
    ensures e.MethodCall? && e.name == "isAvailable" && l == CacheFetch(e.sink)
  {
  }

  /** No event takes a reply back: the log only grows, by at most two replies. */
  lemma StepRepliesGrow(s: PluginState, e: Event)
    ensures s.replies <= Step(s, e).replies
    ensures |Step(s, e).replies| <= |s.replies| + 2
  {
  }

  // ----- sequences of events -----

  /** After any sequence of events the pending `Result` is that of the latest method call. */
  lemma {:induction false} PendingResultIsLatestCall(s: PluginState, es: seq<Event>)
    ensures Run(s, es).result == LatestSink(s.result, es)
    decreases |es|
  {
    if es != [] {
      PendingResultIsLatestCall(s, es[..|es| - 1]);
      StepPendingResult(Run(s, es[..|es| - 1]), es[|es| - 1]);
    }
  }

  /** Once a method call has been made, a `Result` stays pending forever. */
  lemma {:induction false} PendingResultNeverCleared(s: PluginState, es: seq<Event>)
    requires s.result.Some?
    ensures Run(s, es).result.Some?
    decreases |es|
  {
    if es != [] {
      PendingResultNeverCleared(s, es[..|es| - 1]);
      StepPendingResult(Run(s, es[..|es| - 1]), es[|es| - 1]);
    }
  }

  /** No sequence of events empties the token cache once it holds a token. */
  lemma {:induction false} CachedTokenNeverCleared(s: PluginState, es: seq<Event>)
    requires s.reviewInfo.Some?
    ensures Run(s, es).reviewInfo.Some?
    decreases |es|
  {
    if es != [] {
      CachedTokenNeverCleared(s, es[..|es| - 1]);
      StepCacheChange(Run(s, es[..|es| - 1]), es[|es| - 1]);
    }
  }

  /** A token the cache holds at the end and did not hold at the start was put there by a successful cache fetch. */
  lemma {:induction false} CachedTokenComesFromCacheFetch(s: PluginState, es: seq<Event>, tok: Token)
    requires Run(s, es).reviewInfo == Some(tok) && s.reviewInfo != Some(tok)
    ensures exists j :: 0 <= j < |es| && FillsCache(Run(s, es[..j]), es[j], tok)
    decreases |es|
  {
    if es != [] {
      var n := |es| - 1;
      var before := Run(s, es[..n]);
      if before.reviewInfo == Some(tok) {
        CachedTokenComesFromCacheFetch(s, es[..n], tok);
        var j :| 0 <= j < n && FillsCache(Run(s, es[..n][..j]), es[..n][j], tok);
        assert es[..n][..j] == es[..j];
        assert FillsCache(Run(s, es[..j]), es[j], tok);
      } else {
        StepCacheChange(before, es[n]);
        assert FillsCache(Run(s, es[..n]), es[n], tok);
      }
    }
  }

  /** Every cache-fetch listener waiting at the end of a run, and not at its start, was registered by an "isAvailable" call on its `Result`. */
  lemma {:induction false} CacheFetchListenerOrigin(s: PluginState, es: seq<Event>, l: Listener)
    requires l in Run(s, es).tasks && l !in s.tasks && l.CacheFetch?
    ensures exists i :: 0 <= i < |es| && AvailabilityCallOn(es[i], l.sink)
    decreases |es|
  {
    if es != [] {
      var n := |es| - 1;
      var before := Run(s, es[..n]);
      if l in before.tasks {
        CacheFetchListenerOrigin(s, es[..n], l);
        var i :| 0 <= i < n && AvailabilityCallOn(es[..n][i], l.sink);
        assert es[..n][i] == es[i];
      } else {
        StepCacheFetchOrigin(before, es[n], l);
        assert AvailabilityCallOn(es[n], l.sink);
      }
    }
  }

  /**
   * From a fresh plugin, a cached token was stored by a successful cache fetch
   * whose listener an earlier "isAvailable" call registered on its own `Result`.
   */
  lemma CachedTokenComesFromAvailabilityCall(es: seq<Event>, tok: Token)
    requires Run(Initial(), es).reviewInfo == Some(tok)
    ensures exists j, i :: 0 <= i < j < |es| && FillsCache(Run(Initial(), es[..j]), es[j], tok)
              && AvailabilityCallOn(es[i], Run(Initial(), es[..j]).tasks[es[j].index].sink)
  {
    CachedTokenComesFromCacheFetch(Initial(), es, tok);
    var j :| 0 <= j < |es| && FillsCache(Run(Initial(), es[..j]), es[j], tok);
    var before := Run(Initial(), es[..j]);
    var l := before.tasks[es[j].index];
    CacheFetchListenerOrigin(Initial(), es[..j], l);
    var i :| 0 <= i < j && AvailabilityCallOn(es[..j][i], l.sink);
    assert es[..j][i] == es[i];
    assert 0 <= i < j < |es| && FillsCache(before, es[j], tok) && AvailabilityCallOn(es[i], before.tasks[es[j].index].sink);
  }

  /** The reply log of any run extends the log it started from. */
  lemma {:induction false} RepliesOnlyAppended(s: PluginState, es: seq<Event>)
    ensures s.replies <= Run(s, es).replies
    decreases |es|
  {
    if es != [] {
      RepliesOnlyAppended(s, es[..|es| - 1]);
      StepRepliesGrow(Run(s, es[..|es| - 1]), es[|es| - 1]);
    }
  }

  // ----- scenarios -----

  /**
   * A successful availability check warms the cache: the later review request
   * launches with the cached token and starts no fetch.
   */
  lemma WarmCacheSkipsFetch(s: PluginState, k1: SinkId, k2: SinkId, env: Environment, throws: bool, tok: Token)
    requires !ContextOrActivityMissing(s) && PlayReviewSupported(env)
    ensures var a := Step(s, MethodCall("isAvailable", k1, env, throws));
            var b := Step(a, TaskComplete(|s.tasks|, true, tok));
            var c := Step(b, MethodCall("requestReview", k2, env, throws));
            && a.tasks == s.tasks + [CacheFetch(k1)]
            && b.reviewInfo == Some(tok) && b.replies == s.replies + [Delivery(k1, Success(BoolValue(true)))]
            && c.tasks == s.tasks + [ReviewFlow(k2, s.activity.value, tok)]
            && c.replies == b.replies
  {
    var a := Step(s, MethodCall("isAvailable", k1, env, throws));
    assert a.tasks[..|s.tasks|] + a.tasks[|s.tasks| + 1..] == s.tasks;
  }

  /** A failed availability fetch answers `false` and keeps whatever token was cached. */
  lemma FailedAvailabilityFetchKeepsToken(s: PluginState, i: nat, tok: Token)
    requires i < |s.tasks| && s.tasks[i].CacheFetch?
    ensures Step(s, TaskComplete(i, false, tok)).reviewInfo == s.reviewInfo
    ensures Step(s, TaskComplete(i, false, tok)).replies == s.replies + [Delivery(s.tasks[i].sink, Success(BoolValue(false)))]
  {
  }

  /** A token fetched for a review goes to the launch, not into the cache. */
  lemma ReviewFetchLaunches(s: PluginState, i: nat, tok: Token)
    requires i < |s.tasks| && s.tasks[i].ReviewFetch? && !ContextOrActivityMissing(s)
    ensures var t := Step(s, TaskComplete(i, true, tok));
            t.reviewInfo == s.reviewInfo && t.replies == s.replies
            && t.tasks[|t.tasks| - 1] == ReviewFlow(s.tasks[i].sink, s.activity.value, tok)
  {
  }

  /** A failed review fetch is the "unavailable" error, whether or not context and activity are still there. */
  lemma ReviewFetchFailure(s: PluginState, i: nat, tok: Token)
    requires i < |s.tasks| && s.tasks[i].ReviewFetch?
    ensures var t := Step(s, TaskComplete(i, false, tok));
            t.reviewInfo == s.reviewInfo && t.launched == s.launched
            && t.replies == s.replies + [Delivery(s.tasks[i].sink, Error("error", "In-App Review API unavailable", NullValue))]
  {
  }

  /** Without a context or an activity, "isAvailable" answers `false` at once and leaves every pending listener in place. */
  lemma AvailabilityWithoutSurface(s: PluginState, k: SinkId, env: Environment, throws: bool)
    requires ContextOrActivityMissing(s)
    ensures var t := Step(s, MethodCall("isAvailable", k, env, throws));
            t.tasks == s.tasks && t.reviewInfo == s.reviewInfo && t.launched == s.launched
            && t.replies == s.replies + [Delivery(k, Success(BoolValue(false)))]
  {
  }

  /** The review flow's completion is always answered with `null`, whatever the task's outcome. */
  lemma ReviewFlowAlwaysSucceeds(s: PluginState, i: nat, ok: bool, tok: Token)
    requires i < |s.tasks| && s.tasks[i].ReviewFlow?
    ensures Step(s, TaskComplete(i, ok, tok)).replies == s.replies + [Delivery(s.tasks[i].sink, Success(NullValue))]
  {
  }

  /** The gate reports the missing context even when the activity is missing too. */
  lemma GateChecksContextFirst(s: PluginState, k: SinkId, env: Environment, throws: bool)
    requires ContextOrActivityMissing(s)
    ensures var t := Step(s, MethodCall("requestReview", k, env, throws));
            t.tasks == s.tasks &&
            t.replies == s.replies + [Delivery(k, Error("error",
              if s.context.None? then "Android context not available" else "Android activity not available",
              NullValue))]
  {
  }

  /** A platform without Play services, Play Store or Android 5 is answered `false` and nothing is fetched. */
  lemma UnsupportedPlatformNotAvailable(s: PluginState, k: SinkId, env: Environment, throws: bool)
    requires !PlayReviewSupported(env)
    ensures var t := Step(s, MethodCall("isAvailable", k, env, throws));
            t.tasks == s.tasks && t.replies == s.replies + [Delivery(k, Success(BoolValue(false)))]
  {
  }

  /** The store page opened is exactly the details page of the context's package. */
  lemma StoreListingOpensPackagePage(s: PluginState, k: SinkId, env: Environment, throws: bool)
    requires !ContextOrActivityMissing(s)
    ensures var t := Step(s, MethodCall("openStoreListing", k, env, throws));
            t.launched == s.launched + [ViewUrl("https://play.google.com/store/apps/details?id=" + s.context.value.packageName)]
            && t.replies == s.replies + [Delivery(k, Success(NullValue))]
  {
  }

  /** "requestHuaweiReview" whose launch throws answers twice: `false`, then `notImplemented`. */
  lemma HuaweiLaunchFailureRepliesTwice(s: PluginState, k: SinkId, env: Environment)
    ensures Step(s, MethodCall("requestHuaweiReview", k, env, true)).replies
         == s.replies + [Delivery(k, Success(BoolValue(false))), Delivery(k, NotImplemented)]
  {
  }

  /** A launched AppGallery comment leaves `notImplemented` as its only immediate reply. */
  lemma HuaweiLaunchAnswersNotImplemented(s: PluginState, k: SinkId, env: Environment)
    requires s.activity.Some?
    ensures var t := Step(s, MethodCall("requestHuaweiReview", k, env, false));
            t.launched == s.launched + [GuideComment(1001)] && t.replies == s.replies + [Delivery(k, NotImplemented)]
  {
  }

  /** Names the dispatcher does not know are answered `notImplemented` and nothing else happens. */
  lemma UnknownMethodNotImplemented(s: PluginState, name: string, k: SinkId, env: Environment, throws: bool)
    requires !IsHandledMethod(name) && name != "requestHuaweiReview"
    ensures Step(s, MethodCall(name, k, env, throws)) == Send(s.(result := Some(k)), k, NotImplemented)
  {
  }

  /** A cancelled AppGallery comment is reported on the pending `Result` as error "108". */
  lemma HuaweiCancelledComment(s: PluginState)
    requires s.result.Some?
    ensures ActivityResultOp(s, 1001, 108)
         == (Send(s, s.result.value, Error("108", "error", Text("The user canceled the comment."))), Returned(true))
  {
    AppGalleryResult.UserCanceledReply();
  }

  /** The callback does not clear the pending `Result`: a duplicate delivery answers it again. */
  lemma DuplicateActivityResultRepliesTwice(s: PluginState, resultCode: int)
    requires s.result.Some?
    ensures var once := ActivityResultOp(s, 1001, resultCode);
            var twice := ActivityResultOp(once.0, 1001, resultCode);
            var d := Delivery(s.result.value, AppGalleryResult.ResultCodeReply(resultCode));
            once.1 == Returned(true) && twice.1 == Returned(true) && twice.0.replies == s.replies + [d, d]
  {
  }

  /** An activity result that arrives before any method call throws. */
  lemma ActivityResultBeforeAnyCallCrashes(requestCode: int, resultCode: int)
    ensures ActivityResultOp(Initial(), requestCode, resultCode) == (Initial(), Crashed)
  {
  }

  /**
   * The AppGallery result is reported on whichever `Result` is pending when it
   * arrives: a call made in between takes the answer meant for the comment.
   */
  lemma LateActivityResultAnswersLatestCall(s: PluginState, k1: SinkId, k2: SinkId, env: Environment,
                                            throws1: bool, throws2: bool, resultCode: int)
    ensures var es := [MethodCall("requestHuaweiReview", k1, env, throws1),
                       MethodCall("isAvailable", k2, env, throws2),
                       ActivityResult(1001, resultCode)];
            var t := Run(s, es);
            |t.replies| > 0 && t.replies[|t.replies| - 1] == Delivery(k2, AppGalleryResult.ResultCodeReply(resultCode))
  {
  }

  /** Detaching for a configuration change and reattaching installs the new activity; nothing else changes. */
  lemma ConfigChangeRestoresActivity(s: PluginState, a: Activity)
    ensures Step(Step(s, DetachedFromActivityForConfigChanges), ReattachedToActivityForConfigChanges(a))
         == s.(activity := Some(a))
    ensures Step(s, DetachedFromActivity) == s.(activity := None)
  {
  }
}

=== FILE: decimal.dfy ===
/**
 * Decimal rendering of integers, as Java's `String.valueOf(int)` and string
 * concatenation with an `int` produce it, together with a parser, `ParseInt`,
 * proved to invert it.
 */
module Decimal {

  import opened Wrappers

  predicate IsDigit(c: char) {
    '0' <= c <= '9'
  }

  predicate AllDigits(s: string) {
    forall i :: 0 <= i < |s| ==> IsDigit(s[i])
  }

  function DigitChar(d: nat): (c: char)
    requires d < 10
    ensures IsDigit(c)
  {
    ('0' as int + d) as char
  }

  function DigitValue(c: char): (d: nat)
    requires IsDigit(c)
    ensures d < 10 && DigitChar(d) == c
  {
    c as int - '0' as int
  }

  /** The decimal digits of `n`, most significant first, with no leading zero. */
  function NatToString(n: nat): (s: string)
    ensures |s| > 0 && AllDigits(s)
    ensures s[0] == '0' ==> n == 0
    decreases n
  {
    if n < 10 then [DigitChar(n)] else NatToString(n / 10) + [DigitChar(n % 10)]
  }

  /** `String.valueOf(n)`: a minus sign for negative numbers, then the digits of the magnitude. */
  function IntToString(n: int): (s: string)
    ensures |s| > 0
    ensures s[0] == '-' <==> n < 0
    ensures n >= 0 ==> AllDigits(s)
    ensures n >= 0 && s[0] == '0' ==> n == 0
    ensures n < 0 ==> |s| > 1 && AllDigits(s[1..]) && s[1] != '0'
  {
    if n < 0 then "-" + NatToString(-n) else NatToString(n)
  }

  /** The value of a string of decimal digits, read most significant first. */
  function DigitsValue(s: string): (v: nat)
    requires AllDigits(s)
    decreases |s|
  {
    if s == [] then 0 else 10 * DigitsValue(s[..|s| - 1]) + DigitValue(s[|s| - 1])
  }

  /** Reads an optionally negative decimal integer; `None` when `s` is not one. */
  function ParseInt(s: string): (r: Option<int>) {
    if |s| > 1 && s[0] == '-' && AllDigits(s[1..]) then Some(-(DigitsValue(s[1..]) as int))
    else if |s| > 0 && AllDigits(s) then Some(DigitsValue(s))
    else None
  }

  lemma {:induction false} NatToStringRoundTrip(n: nat)
    ensures DigitsValue(NatToString(n)) == n
    decreases n
  {
    if n >= 10 {
      var s := NatToString(n);
      NatToStringRoundTrip(n / 10);
      assert s[..|s| - 1] == NatToString(n / 10);
    }
  }

  lemma IntToStringRoundTrip(n: int)
    ensures ParseInt(IntToString(n)) == Some(n)
  {
    if n < 0 {
      NatToStringRoundTrip(-n);
      assert IntToString(n)[1..] == NatToString(-n);
    } else {
      NatToStringRoundTrip(n);
    }
  }

  /** Distinct integers render as distinct strings. */
  lemma IntToStringInjective(a: int, b: int)
    requires IntToString(a) == IntToString(b)
    ensures a == b
  {
    IntToStringRoundTrip(a);
    IntToStringRoundTrip(b);
  }
}

=== FILE: platform.dfy ===
/**
 * The facts the plugin reads from Android and Google Play services, reduced
 * to values, and the store-listing address it opens.
 */
module Platform {

  import opened Wrappers

  /** `Build.VERSION_CODES.LOLLIPOP`, API level 21. */
  const LOLLIPOP: int := 21

  /**
   * What `isPlayStoreInstalled()`, `isPlayServicesAvailable()` and
   * `Build.VERSION.SDK_INT` report at the moment `isAvailable` runs.
   */
  datatype Environment = Environment(playStoreInstalled: bool, playServicesAvailable: bool, sdkInt: int)

  /** The Play In-App Review API can be tried: Play Store, Play services and Android 5 or later. */
  predicate PlayReviewSupported(env: Environment): (supported: bool)
    ensures !env.playStoreInstalled || !env.playServicesAvailable || env.sdkInt < LOLLIPOP ==> !supported
    ensures env.playStoreInstalled && env.playServicesAvailable && env.sdkInt >= LOLLIPOP ==> supported
  {
    (env.playStoreInstalled && env.playServicesAvailable) && env.sdkInt >= LOLLIPOP
  }

  const STORE_DETAILS_PREFIX: string := "https://play.google.com/store/apps/details?id="

  /** The Play Store details page of the package. */
  function StoreListingUrl(packageName: string): (url: string)
    ensures STORE_DETAILS_PREFIX <= url && url[|STORE_DETAILS_PREFIX|..] == packageName
  {
    STORE_DETAILS_PREFIX + packageName
  }

  /** The package whose details page `url` is, if it is one. */
  function PackageOfStoreListing(url: string): (p: Option<string>)
    ensures p.Some? ==> StoreListingUrl(p.value) == url
    ensures p.None? ==> !(STORE_DETAILS_PREFIX <= url)
  {
    if |STORE_DETAILS_PREFIX| <= |url| && url[..|STORE_DETAILS_PREFIX|] == STORE_DETAILS_PREFIX
    then Some(url[|STORE_DETAILS_PREFIX|..])
    else None
  }

  lemma StoreListingUrlRoundTrip(packageName: string)
    ensures PackageOfStoreListing(StoreListingUrl(packageName)) == Some(packageName)
  {
    var url := StoreListingUrl(packageName);
    assert url[..|STORE_DETAILS_PREFIX|] == STORE_DETAILS_PREFIX;
    assert url[|STORE_DETAILS_PREFIX|..] == packageName;
  }

  /** Different packages get different store pages. */
  lemma StoreListingUrlInjective(p: string, q: string)
    requires StoreListingUrl(p) == StoreListingUrl(q)
    ensures p == q
  {
    StoreListingUrlRoundTrip(p);
    StoreListingUrlRoundTrip(q);
  }
}

=== FILE: plugin.dfy ===
/**
 * `InAppReviewPlugin` as a class whose methods update its fields in place.
 * Each method is proved to leave the object in the state the matching
 * function of `Coordinator` describes.
 */
module Plugin {

  import opened Wrappers
  import opened Replies
  import opened Platform
  import opened Coordinator
  import AppGalleryResult

  class InAppReviewPlugin {
    var context: Option<AppContext>
    var activity: Option<Activity>
    var reviewInfo: Option<Token>
    var result: Option<SinkId>
    /** The completion listeners registered on Play Core tasks and not yet fired. */
    var tasks: seq<Listener>
    /** Every reply made so far, with the `Result` it was made on. */
    var replies: seq<Delivery>
    /** Every activity started so far. */
    var launched: seq<Launch>

    function State(): (st: PluginState)
      reads this
    {
      PluginState(context, activity, reviewInfo, result, tasks, replies, launched)
    }

    constructor ()
      ensures State() == Initial()
    {
      context, activity, reviewInfo, result := None, None, None, None;
      tasks, replies, launched := [], [], [];
    }

    method Send(sink: SinkId, r: Reply)
      modifies this
      ensures State() == Coordinator.Send(old(State()), sink, r)
    {
      replies := replies + [Delivery(sink, r)];
    }

    method OnAttachedToEngine(appContext: AppContext)
      modifies this
      ensures State() == Step(old(State()), AttachedToEngine(appContext))
    {
      context := Some(appContext);
    }

    method OnAttachedToActivity(attached: Activity)
      modifies this
      ensures State() == Step(old(State()), AttachedToActivity(attached))
    {
      activity := Some(attached);
    }

    method OnDetachedFromActivityForConfigChanges()
      modifies this
      ensures State() == Step(old(State()), DetachedFromActivityForConfigChanges)
    {
      OnDetachedFromActivity();
    }

    method OnReattachedToActivityForConfigChanges(reattached: Activity)
      modifies this
      ensures State() == Step(old(State()), ReattachedToActivityForConfigChanges(reattached))
    {
      OnAttachedToActivity(reattached);
    }

    method OnDetachedFromActivity()
      modifies this
      ensures State() == Step(old(State()), DetachedFromActivity)
    {
      activity := None;
    }

    method OnDetachedFromEngine()
      modifies this
      ensures State() == Step(old(State()), DetachedFromEngine)
    {
      context := None;
    }

    method OnMethodCall(name: string, sink: SinkId, env: Environment, launchThrows: bool)
      modifies this
      ensures State() == Step(old(State()), MethodCall(name, sink, env, launchThrows))
    {
      result := Some(sink);
      if name == "isAvailable" {
        IsAvailable(sink, env);
      } else if name == "requestReview" {
        RequestReview(sink);
      } else if name == "openStoreListing" {
        OpenStoreListing(sink);
      } else {
        if name == "requestHuaweiReview" {
          RequestHuaweiReview(sink, launchThrows);
        }
        // no break after requestHuaweiReview: it runs on into the default branch
        Send(sink, NotImplemented);
      }
    }

    method OnActivityResult(requestCode: int, resultCode: int) returns (outcome: CallbackOutcome)
      modifies this
      ensures (State(), outcome) == ActivityResultOp(old(State()), requestCode, resultCode)
    {
      if result.None? {
        // the first log line calls result.toString() before any null test
        return Crashed;
      }
      if requestCode == AppGalleryResult.REQUEST_CODE {
        Send(result.value, AppGalleryResult.ResultCodeReply(resultCode));
        return Returned(true);
      }
      return Returned(false);
    }

    method RequestHuaweiReview(sink: SinkId, launchThrows: bool)
      modifies this
      ensures State() == RequestHuaweiReviewOp(old(State()), sink, launchThrows)
    {
      if launchThrows || activity.None? {
        Send(sink, Success(BoolValue(false)));
      } else {
        launched := launched + [GuideComment(AppGalleryResult.REQUEST_CODE)];
      }
    }

    method IsAvailable(sink: SinkId, env: Environment)
      modifies this
      ensures State() == IsAvailableOp(old(State()), sink, env)
    {
      var missing := NoContextOrActivity();
      if missing {
        Send(sink, Success(BoolValue(false)));
        return;
      }
      var playStoreAndPlayServicesAvailable := env.playStoreInstalled && env.playServicesAvailable;
      var lollipopOrLater := env.sdkInt >= LOLLIPOP;
      if !(playStoreAndPlayServicesAvailable && lollipopOrLater) {
        Send(sink, Success(BoolValue(false)));
      } else {
        CacheReviewInfo(sink);
      }
    }

    method CacheReviewInfo(sink: SinkId)
      modifies this
      ensures State() == CacheReviewInfoOp(old(State()), sink)
    {
      var missing := NoContextOrActivityReply(sink);
      if missing {
        return;
      }
      tasks := tasks + [CacheFetch(sink)];
    }

    method RequestReview(sink: SinkId)
      modifies this
      ensures State() == RequestReviewOp(old(State()), sink)
    {
      var missing := NoContextOrActivityReply(sink);
      if missing {
        return;
      }
      if reviewInfo.Some? {
        LaunchReviewFlow(sink, reviewInfo.value);
        return;
      }
      tasks := tasks + [ReviewFetch(sink)];
    }

    method LaunchReviewFlow(sink: SinkId, token: Token)
      modifies this
      ensures State() == LaunchReviewFlowOp(old(State()), sink, token)
    {
      var missing := NoContextOrActivityReply(sink);
      if missing {
        return;
      }
      tasks := tasks + [ReviewFlow(sink, activity.value, token)];
    }

    /** The listener at `index` fires, with the outcome of its task. */
    method CompleteTask(index: nat, succeeded: bool, token: Token)
      requires index < |tasks|
      modifies this
      ensures State() == Step(old(State()), TaskComplete(index, succeeded, token))
    {
      var listener := tasks[index];
      tasks := tasks[..index] + tasks[index + 1..];
      match listener
      case CacheFetch(k) =>
        if succeeded {
          reviewInfo := Some(token);
          Send(k, Success(BoolValue(true)));
        } else {
          Send(k, Success(BoolValue(false)));
        }
      case ReviewFetch(k) =>
        if succeeded {
          LaunchReviewFlow(k, token);
        } else {
          Send(k, Error("error", "In-App Review API unavailable", NullValue));
        }
      case ReviewFlow(k, _, _) =>
        Send(k, Success(NullValue));
    }

    method OpenStoreListing(sink: SinkId)
      modifies this
      ensures State() == OpenStoreListingOp(old(State()), sink)
    {
      var missing := NoContextOrActivityReply(sink);
      if missing {
        return;
      }
      var packageName := context.value.packageName;
      launched := launched + [ViewUrl(StoreListingUrl(packageName))];
      Send(sink, Success(NullValue));
    }

    /** The silent gate used by `isAvailable`: context is tested before activity. */
    method NoContextOrActivity() returns (missing: bool)
      ensures missing <==> context.None? || activity.None?
    {
      if context.None? {
        missing := true;
      } else if activity.None? {
        missing := true;
      } else {
        missing := false;
      }
    }

    /** The replying gate: reports the missing context, else the missing activity, on `sink`. */
    method NoContextOrActivityReply(sink: SinkId) returns (missing: bool)
      modifies this
      ensures missing <==> ContextOrActivityMissing(old(State()))
      ensures State() == (match GateError(old(State()))
                          case Some(e) => Coordinator.Send(old(State()), sink, e)
                          case None => old(State()))
    {
      if context.None? {
        Send(sink, Error("error", "Android context not available", NullValue));
        missing := true;
      } else if activity.None? {
        Send(sink, Error("error", "Android activity not available", NullValue));
        missing := true;
      } else {
        missing := false;
      }
    }
  }
}

=== FILE: replies.dfy ===
/**
 * What the plugin sends back over the method channel. A Flutter `Result`
 * object is a sink identified by a `SinkId`; every reply the plugin makes is
 * logged as a `Delivery` to the sink it was made on.
 */
module Replies {

  /** The payloads that reach `success` or the `details` of `error`. */
  datatype Value = NullValue | BoolValue(b: bool) | Text(s: string)

  /** `Result.success(value)`, `Result.error(code, message, details)` and `Result.notImplemented()`. */
  datatype Reply =
    | Success(value: Value)
    | Error(code: string, message: string, details: Value)
    | NotImplemented

  /** The identity of one `Result` object handed to `onMethodCall`. */
  type SinkId = nat

  datatype Delivery = Delivery(sink: SinkId, reply: Reply)
}

=== FILE: wrappers.dfy ===
/** The Option datatype used wherever the plugin holds a nullable reference. */
module Wrappers {

  datatype Option<+T> = None | Some(value: T)
}
